=== FILE: README.md ===
# link-preview-lite, modelled in Dafny

link-preview-lite is a small Node.js service. A client POSTs a JSON body
`{"url": "<text>"}`. The service finds the first http(s) link in the text,
fetches that page and extracts its title, description and image. It then
answers with a preview `{title, description, image, domain}`, in which every
missing field is filled in from the link itself.

This project models the request pipeline inside the `end` callback of
`requestHandler` in `index.js`. It has three pure parts:

- **Link extraction** (`url_extractor.dfy`, `char_classes.dfy`). This is
  `url.match(urlRegex)[0]` for the expression
  `/(\b(https?):\/\/[-A-Z0-9+&@#/%?=~_|!:,.;]*[-A-Z0-9+&@#/%=~_|])/gi`.
  - The predicates `IsMatch`, `IsFirstMatch` and `NoMatch` state what the
    expression accepts: a word boundary, `http://` or `https://` in any case,
    body-class characters, and a narrow-class last character. Of those,
    `match(...)[0]` takes the leftmost match and, at that index, the longest.
  - `MatchEnd` and `FirstMatch` compute the same thing with a scanner. It
    takes the longest run of body characters and trims it back to the last
    narrow character, just as the regex engine backtracks.
  - The scanner is proved equal to the predicates in both directions.
- **Fallback synthesis** (`preview.dfy`). This covers the JavaScript `||`
  fallbacks of the success path and the record built in the `catch` block.
- **Response selection** (`handler.dfy`). This maps the request to one of
  the outcomes (preflight, body not JSON, no `url` key, no link, preview) and
  each outcome to its status code and body.

The host-name parser (`new URL(u).hostname`) and the fetch-and-extract step
(`got` followed by `metascraper`) are libraries outside the model. They are
function parameters, `hostname: string -> string` and
`fetch: string -> Option<Metadata>`, where `None` means that either step
threw. The parsed request body is `Option<Option<string>>`:

- `None`: the body is not JSON, or it is JSON `null`, so reading `.url` throws
  inside the same `try`.
- `Some(None)`: the body has no `url` key.
- `Some(Some(text))`: the `url` string.

`scenarios.dfy` works through some concrete requests:

- a sentence that ends in `https://example.com/page!`;
- text with no link;
- a scheme glued to the end of a word;
- an unreachable host;
- a page that yields only a title.

Strings are `seq<char>`. The expression has the `i` flag but not the `u`
flag, so both its classes and `\w` contain ASCII characters only. JavaScript
strings are UTF-16 code units and Dafny characters are Unicode scalar values.
This difference does not change any match, because no non-ASCII code unit or
character is in any of the classes.

## Model

| member | source | states |
|---|---|---|
| `CharClasses.IsWordChar` | index.js:57 | `\w`, whose edge `\b` detects: ASCII only, and every word character is also a narrow-class character |
| `CharClasses.IsNarrow` | index.js:57 | the narrow class (allowed last characters) under the `i` flag: ASCII only, and letters of both cases belong to it |
| `CharClasses.IsWide` | index.js:57 | the wide class (allowed body characters): ASCII only, and it contains the whole narrow class |
| `CharClasses.ToLower` | index.js:57 | the `i` flag's case folding: only ASCII letters change, to lower case, and every other character is left as it is |
| `CharClasses.EqualsIgnoringCase` | index.js:57 | two texts are equal up to the case of ASCII letters, as the `i` flag compares the scheme |
| `CharClasses.TrailingPunctuation` | index.js:57 | `.` `,` `;` `:` `!` `?` may occur inside a link but cannot be its last character |
| `UrlExtractor.BoundaryBefore` | index.js:57 | `\b` in front of the scheme's `h`: the text starts there, or the character before is not a word character |
| `UrlExtractor.SchemeAt` | index.js:57 | `(https?):\/\/` matches the `n` characters at an index: `http://` (7) or `https://` (8), in any case |
| `UrlExtractor.IsMatch` | index.js:57 | the expression matches exactly `s[i..j]`: a word boundary before `i`, `http://` or `https://` in any case, body characters, and a narrow last character |
| `UrlExtractor.IsFirstMatch` | index.js:57-59 | a span is element 0 of `match`: it is a match, no match starts further left, and none at its start is longer |
| `UrlExtractor.NoMatch` | index.js:59-61 | `match` returns `null`: no span of the text is a match |
| `UrlExtractor.SchemeLength` | index.js:57 | `(https?):\/\/` fits at an index in at most one way; the result is that length, or 0 when neither scheme fits |
| `UrlExtractor.RunEnd` | index.js:57 | the greedy `[...]*`: all characters up to the result are body characters, and the next one is not (or the text ends) |
| `UrlExtractor.TrimEnd` | index.js:57 | backtracking for the final narrow character: the result ends on a narrow character, and no later end within the run does |
| `UrlExtractor.MatchEnd` | index.js:57 | the expression matches at an index exactly when this returns an end; that end is a match and no longer match starts there |
| `UrlExtractor.FirstMatchFrom` | index.js:57-59 | the scan returns a match with no match starting further left and none longer at its start, or nothing when no match starts at or after the index |
| `UrlExtractor.FirstMatch` | index.js:57-59 | `match(urlRegex)` is non-null exactly when some match exists, and element 0 is the leftmost-longest match |
| `UrlExtractor.ExtractUrl` | index.js:57-64 | `urls[0]` is absent exactly when nothing matches; otherwise it starts with `http://` or `https://` in any case, continues with body characters and ends on a narrow character |
| `UrlExtractor.MatchShape` | index.js:57 | the text of any match, cut out of its input, has that link shape |
| `UrlExtractor.NoTrailingPunctuation` | index.js:57 | an extracted link never ends in `.` `,` `;` `:` `!` or `?` |
| `UrlExtractor.MatchNeedsSchemeStart` | index.js:57 | no match starts at an index that is not at a word boundary or does not begin with `h`, `t` (any case) and leave room for a link |
| `UrlExtractor.FirstMatchUnique` | index.js:57-59 | a span that is leftmost and longest is the one the scanner returns, so the characterisation is exact |
| `UrlExtractor.ExtractUrlIsFirstMatch` | index.js:59-64 | the extracted link is a contiguous piece of the input, at a word boundary, at the first match |
| `UrlExtractor.LaterTextIgnored` | index.js:59-64 | once the text holds a match followed by a non-body character, anything appended, further links included, leaves the first match and the extracted link unchanged |
| `Preview.Truthy` | index.js:72-76 | JavaScript truthiness of an extracted field: present and not the empty string |
| `Preview.OrElse` | index.js:72-76 | JavaScript's logical-or fallback on an optional string: the value when truthy, otherwise the fallback |
| `Preview.Synthesise` | index.js:72-79 | each of title, description and image keeps its extracted value when truthy and otherwise falls back to the host name, the link or the placeholder, independently; `domain` is the host name |
| `Preview.FallbackPreview` | index.js:85-91 | the `catch` record is the success path's fallbacks applied to a page that yields nothing |
| `Preview.PreviewFor` | index.js:65-92 | a failed fetch or extraction gives title = host name, description = link, image = placeholder; a successful one goes through the fallbacks; the image is never empty and `domain` is always the host name, whatever the page yields |
| `Preview.FallbackIsEmptyExtraction` | index.js:65-91 | a failed fetch or extraction and a page that yields nothing give the same preview |
| `Preview.SynthesiseIdempotent` | index.js:72-79 | applying the fallbacks to their own output changes nothing |
| `Preview.PreviewFieldsNonEmpty` | index.js:71-91 | with a non-empty link and host name, all four preview fields are non-empty strings |
| `Handler.Respond` | index.js:28-102 | status 204 exactly for a preflight, which alone has an empty body; 200 exactly for a preview; 400 exactly for the three client errors |
| `Handler.RespondRoundTrip` | index.js:42-102 | the five kinds of response (204, the three distinct 400 messages, 200) are pairwise distinct, so a client can tell which outcome occurred |
| `Handler.OutcomeOfText` | index.js:57-103 | a `url` string gives either "no valid URL" or a preview: the former exactly when it holds no match, the latter built from the page and host name of its first match |
| `Handler.UrlField` | index.js:38-46 | the `url` variable after the `try`/`catch`: the string when the body has a `url` string, and `undefined` when parsing threw or the key is missing |
| `Handler.Classify` | index.js:28-103 | OPTIONS is a preflight whatever the body; otherwise an unparsable body, a missing key and a `url` string lead to their own outcomes |
| `Handler.Handle` | index.js:25-107 | OPTIONS gives 204 with no body before any parsing; not JSON, no `url` key and no link each give 400 with their message; 200 exactly when the `url` text holds a link |
| `Handler.PreviewOfFirstLink` | index.js:59-94 | the 200 response carries the preview of the first link's page, and its domain is the first link's host name |
| `Handler.FetchFailureFallsBack` | index.js:80-94 | when the fetch fails the response is still 200, with exactly `{title: host, description: link, image: placeholder, domain: host}` |
| `Handler.SuccessFieldsNonEmpty` | index.js:71-94 | a 200 response has four non-empty fields, whatever the extractor returned, if the host name is non-empty |
| `Handler.LaterLinksIgnored` | index.js:59-94 | links after the first one (past a separator) do not change the response |
| `Handler.WriteAttempts` | index.js:28-103 | the writes the callback attempts, in source order: one for every request, and a second one exactly for a non-OPTIONS request whose body is not JSON or is `null` (whose `.url` cannot be read) |
| `Handler.NotJsonAttemptsSecondWrite` | index.js:39-54 | as written, a body whose `.url` cannot be read (not JSON, or `null`) leads to the "not JSON" response and then an attempt to write "no url key" on the response that has already ended |
| `Handler.HandleIsFirstWrite` | index.js:39-54 | the response `Handle` gives is the first one the source writes, and the only one for every request whose `.url` can be read (OPTIONS, or any JSON body except `null`) |
| `Scenarios.TrailingBangDropped` | index.js:57 | `Check this out: https://example.com/page!` yields `https://example.com/page` |
| `Scenarios.NoLinksHere` | index.js:95-102 | `no links here` yields 400 "Request body does not contain a valid URL" |
| `Scenarios.GluedSchemeIgnored` | index.js:57 | `xhttp://a.com` holds no link, because `\b` fails before the `h` |
| `Scenarios.UnreachableFallsBack` | index.js:80-94 | an unreachable `https://unreachable.invalid` is answered 200 with the fallback record |
| `Scenarios.TitleOnlyPage` | index.js:71-94 | a page that yields only the title `Example` gives that title, the link as description, the placeholder image and domain `example.com` |

## Left out

- HTTP plumbing is not modelled: the server, listening on the port, the CORS
  header constants and console logging (index.js:14-23, 109-117). These are
  I/O or fixed data with nothing to prove.
- Accumulating the request body is not modelled (index.js:26, 33-35).
  `JSON.parse(data)` receives the array of chunks, which becomes a string
  with commas between chunks. The model starts from the parsed body.
- `JSON.parse`, `got` and `metascraper` are outside libraries
  (index.js:8-13, 40, 66-70). They appear only through the shape of
  `JsonBody` and the `fetch` parameter.
- The WHATWG URL parser behind `new URL(urls[0]).hostname` (index.js:64) is
  the `hostname` parameter and is treated as total. In the source this call
  sits outside the `try`, so a match that does not parse as a URL (for
  example `http://#`) throws inside the async callback and no response is
  written. The model does not cover that path.
- A `url` value that is not a string (a number, `null`, an array) makes
  `url.match` throw (index.js:59). This is not modelled: `JsonBody` carries
  only string values.
- Handler.SuccessFieldsNonEmpty: proves non-empty fields only when the
  host name is non-empty, because the host-name parser is outside the
  model. `new URL` rejects an http(s) link with an empty host, so this
  condition holds whenever the source reaches that line.
- Preview.PreviewFieldsNonEmpty: also requires a non-empty host name, for
  the same reason.

## Findings

| source | as written | input that shows it | evidently intended | confidence | as-written member | corrected member |
|---|---|---|---|---|---|---|
| index.js:42-47 | the `catch` for a body whose `.url` cannot be read (not JSON, or `null`) ends the response with 400 "Request body not JSON" but does not return. `url` is still `undefined`, so the `url === undefined` branch attempts a second write after the response has ended. In Node.js that `writeHead` throws ERR_HTTP_HEADERS_SENT inside the async `end` callback, which becomes an unhandled rejection; the client sees only the first response. Under Node's default unhandled-rejection mode (since v15) that rejection ends the server process, so on such a Node one non-JSON or `null` POST would take the service down for every later request | a POST whose body is `not json` (or `null`) | one 400 "Request body not JSON" response and no further write attempt | high; not executed | `Handler.NotJsonAttemptsSecondWrite` | `Handler.HandleIsFirstWrite` |

The rest of the model uses `Handler.Handle`, which gives exactly one
response per request. `Handler.WriteAttempts` follows the source's control
flow literally. `Handler.HandleIsFirstWrite` proves two things: `Handle`
returns the first response the source writes, and for every request whose
`.url` can be read (OPTIONS, or any JSON body except `null`) the source
attempts no other write.

=== FILE: char_classes.dfy ===
/** The character classes of the link-matching regular expression in
    index.js. The expression carries the `i` flag but not the `u` flag, so
    letters match in either case and only ASCII letters are letters: no
    non-ASCII character folds onto an ASCII one. */
module CharClasses {

  predicate IsAsciiLetter(c: char) {
    'A' <= c <= 'Z' || 'a' <= c <= 'z'
  }

  predicate IsDigit(c: char) {
    '0' <= c <= '9'
  }

  /** The characters `\w` accepts, whose edges `\b` detects. */
  predicate IsWordChar(c: char): (b: bool)
    ensures b ==> c as int < 128
    ensures b ==> IsNarrow(c)
  {
    IsAsciiLetter(c) || IsDigit(c) || c == '_'
  }

  /** `[-A-Z0-9+&@#/%=~_|]`: the class the last character of a link is drawn from. */
  predicate IsNarrow(c: char): (b: bool)
    ensures b ==> c as int < 128
    ensures 'a' <= c <= 'z' || 'A' <= c <= 'Z' ==> b
  {
    IsAsciiLetter(c) || IsDigit(c) || c in "-+&@#/%=~_|"
  }

  /** `[-A-Z0-9+&@#/%?=~_|!:,.;]`: the class of the body of a link. It adds
      the punctuation that may occur inside a link but never ends one. */
  predicate IsWide(c: char): (b: bool)
    ensures b ==> c as int < 128
    ensures IsNarrow(c) ==> b
  {
    IsNarrow(c) || c in "?!:,.;"
  }

  /** ASCII lower-casing; every other character is left alone. */
  function ToLower(c: char): (r: char)
    ensures IsAsciiLetter(c) <==> IsAsciiLetter(r)
    ensures IsAsciiLetter(c) ==> 'a' <= r <= 'z'
    ensures !IsAsciiLetter(c) ==> r == c
    ensures 'a' <= r <= 'z' ==> (c == r || c as int == r as int - 32)
  {
    if 'A' <= c <= 'Z' then (c as int + 32) as char else c
  }

  /** `a` and `b` are the same text up to the case of ASCII letters. */
  predicate EqualsIgnoringCase(a: string, b: string) {
    |a| == |b| && forall m :: 0 <= m < |a| ==> ToLower(a[m]) == ToLower(b[m])
  }

  /** The trailing punctuation the narrow class shuts out of the end of a link. */
  lemma TrailingPunctuation(c: char)
    ensures c in ".,;:!?" ==> IsWide(c) && !IsNarrow(c)
  {
  }

  /** Every character that folds onto a letter of `https://` is a body character. */
  lemma SchemeCharIsWide(c: char)
    requires ToLower(c) in "https:/"
    ensures IsWide(c) && IsWordChar(c) == IsAsciiLetter(c)
  {
  }
}

=== FILE: handler.dfy ===
/** The `end` callback of `requestHandler` in index.js, without its I/O:
    from the request method and the parsed body to the one response written.

    The host-name parser (`new URL(u).hostname`) and the fetch-and-extract
    step (`got` followed by `metascraper`) are outside libraries; they come
    in as the function parameters `hostname` and `fetch`, where `fetch`
    returns `None` when either step throws. */
module Handler {
  import opened Wrappers
  import CharClasses
  import opened UrlExtractor
  import opened Preview

  /** The request body after `JSON.parse(data).url`:
      `None` — the body did not parse, or parsed to `null`, so reading
      `.url` threw; `Some(None)` — no `url` key; `Some(Some(text))` — the
      `url` value, a string that may hold a link among other text. */
  type JsonBody = Option<Option<string>>

  datatype Request = Request(verb: string, body: JsonBody)

  datatype Body = NoContent | ErrorBody(error: string) | PreviewBody(preview: Preview)

  datatype Response = Response(status: nat, body: Body)

  /** How a request ends. */
  datatype Outcome =
    | Preflight
    | InvalidJson
    | MissingUrlKey
    | NoUrlFound
    | Previewed(preview: Preview)

  const NotJsonMessage: string := "Request body not JSON"
  const MissingUrlMessage: string := "Request body does not contain url key, i.e. {'url': ...}"
  const NoValidUrlMessage: string := "Request body does not contain a valid URL"

  /** The status code and body written for each outcome. */
  function Respond(o: Outcome): (r: Response)
    ensures r.status == 204 <==> o.Preflight?
    ensures r.status == 200 <==> o.Previewed?
    ensures r.status == 400 <==> (o.InvalidJson? || o.MissingUrlKey? || o.NoUrlFound?)
    ensures r.body.NoContent? <==> o.Preflight?
  {
    match o
    case Preflight => Response(204, NoContent)
    case InvalidJson => Response(400, ErrorBody(NotJsonMessage))
    case MissingUrlKey => Response(400, ErrorBody(MissingUrlMessage))
    case NoUrlFound => Response(400, ErrorBody(NoValidUrlMessage))
    case Previewed(p) => Response(200, PreviewBody(p))
  }

  /** What a client can tell from a response. */
  function OutcomeOf(r: Response): Option<Outcome> {
    match r.body
    case NoContent => if r.status == 204 then Some(Preflight) else None
    case PreviewBody(p) => if r.status == 200 then Some(Previewed(p)) else None
    case ErrorBody(e) =>
      if r.status != 400 then None
      else if e == NotJsonMessage then Some(InvalidJson)
      else if e == MissingUrlMessage then Some(MissingUrlKey)
      else if e == NoValidUrlMessage then Some(NoUrlFound)
      else None
  }

  /** Distinct outcomes give distinct responses: the client can recover
      which one happened. */
  lemma RespondRoundTrip(o: Outcome)
    ensures OutcomeOf(Respond(o)) == Some(o)
  {
    match o
    case InvalidJson =>
    case MissingUrlKey =>
      assert MissingUrlMessage[13] != NotJsonMessage[13];
    case NoUrlFound =>
      assert NoValidUrlMessage[13] != NotJsonMessage[13];
      assert NoValidUrlMessage[30] != MissingUrlMessage[30];
    case _ =>
  }

  /** The outcome of a `url` string (lines 57-94): the first link in it, or
      no link at all. */
  function OutcomeOfText(text: string, hostname: string -> string, fetch: string -> Option<Metadata>): (o: Outcome)
    ensures o.NoUrlFound? || o.Previewed?
    ensures o.NoUrlFound? <==> NoMatch(text)
    ensures o.Previewed? ==> FirstMatch(text).Some?
    ensures o.Previewed? ==>
      var u := text[FirstMatch(text).value.start..FirstMatch(text).value.end];
      o.preview == PreviewFor(fetch(u), u, hostname(u))
  {
    match ExtractUrl(text)
    case None => NoUrlFound
    case Some(u) =>
      ExtractUrlIsFirstMatch(text);
      Previewed(PreviewFor(fetch(u), u, hostname(u)))
  }

  /** The outcome of a request (lines 28-31 and 37-103). */
  function Classify(req: Request, hostname: string -> string, fetch: string -> Option<Metadata>): (o: Outcome)
    ensures o.Preflight? <==> req.verb == "OPTIONS"
    ensures o.InvalidJson? <==> req.verb != "OPTIONS" && req.body.None?
    ensures o.MissingUrlKey? <==> req.verb != "OPTIONS" && req.body == Some(None)
    ensures (o.NoUrlFound? || o.Previewed?) <==> req.verb != "OPTIONS" && req.body.Some? && req.body.value.Some?
  {
    if req.verb == "OPTIONS" then Preflight
    else
      match req.body
      case None => InvalidJson
      case Some(None) => MissingUrlKey
      case Some(Some(text)) => OutcomeOfText(text, hostname, fetch)
  }

  /** The one response a request receives. */
  function Handle(req: Request, hostname: string -> string, fetch: string -> Option<Metadata>): (r: Response)
    ensures req.verb == "OPTIONS" ==> r == Response(204, NoContent)
    ensures req.verb != "OPTIONS" && req.body.None? ==> r == Response(400, ErrorBody(NotJsonMessage))
    ensures req.verb != "OPTIONS" && req.body == Some(None) ==> r == Response(400, ErrorBody(MissingUrlMessage))
    ensures req.verb != "OPTIONS" && req.body.Some? && req.body.value.Some? ==>
      (r == Response(400, ErrorBody(NoValidUrlMessage)) <==> NoMatch(req.body.value.value))
    ensures r.status == 200 <==>
      req.verb != "OPTIONS" && req.body.Some? && req.body.value.Some? && !NoMatch(req.body.value.value)
  {
    Respond(Classify(req, hostname, fetch))
  }

  /** The preview answers the first link in the text: its domain is that
      link's host name, and it is built from that link's page. */
  lemma PreviewOfFirstLink(verb: string, text: string, sp: Span,
                           hostname: string -> string, fetch: string -> Option<Metadata>)
    requires verb != "OPTIONS"
    requires IsFirstMatch(text, sp)
    ensures var u := text[sp.start..sp.end];
      Handle(Request(verb, Some(Some(text))), hostname, fetch)
        == Response(200, PreviewBody(PreviewFor(fetch(u), u, hostname(u))))
    ensures Handle(Request(verb, Some(Some(text))), hostname, fetch).body.preview.domain
        == hostname(text[sp.start..sp.end])
  {
    FirstMatchUnique(text, sp);
  }

  /** A failed fetch still answers 200, with exactly the fallback record. */
  lemma FetchFailureFallsBack(verb: string, text: string, sp: Span,
                              hostname: string -> string, fetch: string -> Option<Metadata>)
    requires verb != "OPTIONS"
    requires IsFirstMatch(text, sp)
    requires fetch(text[sp.start..sp.end]).None?
    ensures var u := text[sp.start..sp.end];
      Handle(Request(verb, Some(Some(text))), hostname, fetch)
        == Response(200, PreviewBody(Preview(hostname(u), u, PlaceholderImage, hostname(u))))
  {
    PreviewOfFirstLink(verb, text, sp, hostname, fetch);
  }

  /** A successful response never carries an empty field, provided the
      host-name parser yields a non-empty host for the link. */
  lemma SuccessFieldsNonEmpty(verb: string, text: string, sp: Span,
                              hostname: string -> string, fetch: string -> Option<Metadata>)
    requires verb != "OPTIONS"
    requires IsFirstMatch(text, sp)
    requires hostname(text[sp.start..sp.end]) != ""
    ensures var r := Handle(Request(verb, Some(Some(text))), hostname, fetch);
      r.status == 200 && r.body.PreviewBody?
      && r.body.preview.title != "" && r.body.preview.description != ""
      && r.body.preview.image != "" && r.body.preview.domain != ""
  {
    var u := text[sp.start..sp.end];
    PreviewOfFirstLink(verb, text, sp, hostname, fetch);
    assert |u| > 0;
    PreviewFieldsNonEmpty(fetch(u), u, hostname(u));
  }

  /** Links after the first one never affect the response: once the text
      holds a link and then a separator, anything may follow. */
  lemma LaterLinksIgnored(verb: string, s: string, t: string,
                          hostname: string -> string, fetch: string -> Option<Metadata>)
    requires FirstMatch(s).Some?
    requires |s| > 0 && !CharClasses.IsWide(s[|s| - 1])
    ensures Handle(Request(verb, Some(Some(s + t))), hostname, fetch)
         == Handle(Request(verb, Some(Some(s))), hostname, fetch)
  {
    LaterTextIgnored(s, t);
  }

  /** The `url` variable after the `try`/`catch` of lines 38-46: still
      `undefined` when parsing threw. */
  function UrlField(body: JsonBody): Option<string> {
    match body
    case Some(Some(text)) => Some(text)
    case _ => None
  }

  /** The responses the callback tries to write, in order, following the
      source literally. The `catch` for a body whose `.url` cannot be read
      (not JSON, or JSON `null`) writes and ends the response but does not
      return, so control falls through to the
      `url === undefined` test, which tries to write a second one. The
      response has already ended by then: Node.js throws from that
      `writeHead` inside the async callback, an unhandled rejection, and
      the client sees only the first response. */
  function WriteAttempts(req: Request, hostname: string -> string, fetch: string -> Option<Metadata>): (w: seq<Response>)
    ensures |w| == 1 || |w| == 2
    ensures |w| == 2 <==> req.verb != "OPTIONS" && req.body.None?
  {
    if req.verb == "OPTIONS" then [Respond(Preflight)]
    else
      var caught := if req.body.None? then [Respond(InvalidJson)] else [];
      match UrlField(req.body)
      case None => caught + [Respond(MissingUrlKey)]
      case Some(text) => caught + [Respond(OutcomeOfText(text, hostname, fetch))]
  }

  /** As written, a body whose `.url` cannot be read (not JSON, or JSON
      `null`) leads to two write attempts: the "not JSON" error, which ends
      the response, and then the "no url key" error on the response that
      has already ended. */
  lemma NotJsonAttemptsSecondWrite(verb: string, hostname: string -> string, fetch: string -> Option<Metadata>)
    requires verb != "OPTIONS"
    ensures WriteAttempts(Request(verb, None), hostname, fetch)
      == [Response(400, ErrorBody(NotJsonMessage)), Response(400, ErrorBody(MissingUrlMessage))]
  {
  }

  /** `Handle` is the source with the missing `return` restored: its
      response is the first one the source writes, and for every request
      whose `.url` can be read (OPTIONS, or any JSON body except `null`) the
      source attempts no other write. */
  lemma HandleIsFirstWrite(req: Request, hostname: string -> string, fetch: string -> Option<Metadata>)
    ensures |WriteAttempts(req, hostname, fetch)| > 0
    ensures WriteAttempts(req, hostname, fetch)[0] == Handle(req, hostname, fetch)
    ensures req.verb == "OPTIONS" || req.body.Some? ==>
      WriteAttempts(req, hostname, fetch) == [Handle(req, hostname, fetch)]
  {
  }
}

=== FILE: preview.dfy ===
/** The preview record of index.js and the fallback rules that fill it
    (lines 71-91). Metadata extraction itself belongs to an outside library;
    here it is only the shape of what that library hands back. */
module Preview {
  import opened Wrappers

  /** The fixed placeholder used when a page yields no image. */
  const PlaceholderImage: string :=
    "http://www.globaltrack.in/assets/testimonial_images/no-image-800x800.jpg"

  /** What the metadata extractor returns: each field may be missing. */
  datatype Metadata = Metadata(title: Option<string>, description: Option<string>, image: Option<string>)

  /** The preview sent back to the client. */
  datatype Preview = Preview(title: string, description: string, image: string, domain: string)

  /** Nothing was extracted. */
  const NoMetadata: Metadata := Metadata(None, None, None)

  /** JavaScript truthiness of an optional string: present and non-empty. */
  predicate Truthy(v: Option<string>) {
    v.Some? && v.value != ""
  }

  /** `v || fallback` for an optional string. */
  function OrElse(v: Option<string>, fallback: string): string {
    if Truthy(v) then v.value else fallback
  }

  /** The fields of a preview, read back as extracted metadata. */
  function AsMetadata(p: Preview): Metadata {
    Metadata(Some(p.title), Some(p.description), Some(p.image))
  }

  /** The success path of the fetch (lines 72-79): every field keeps the
      extracted value when that value is truthy and otherwise falls back,
      independently of the other fields; `domain` is always the host name. */
  function Synthesise(m: Metadata, url: string, host: string): (p: Preview)
    ensures Truthy(m.title) ==> p.title == m.title.value
    ensures !Truthy(m.title) ==> p.title == host
    ensures Truthy(m.description) ==> p.description == m.description.value
    ensures !Truthy(m.description) ==> p.description == url
    ensures Truthy(m.image) ==> p.image == m.image.value
    ensures !Truthy(m.image) ==> p.image == PlaceholderImage
    ensures p.domain == host
  {
    Preview(OrElse(m.title, host), OrElse(m.description, url), OrElse(m.image, PlaceholderImage), host)
  }

  /** The record built in the `catch` block (lines 85-91): the success
      path's fallbacks applied to a page that yields nothing. */
  function FallbackPreview(url: string, host: string): (p: Preview)
    ensures p == Synthesise(NoMetadata, url, host)
  {
    Preview(host, url, PlaceholderImage, host)
  }

  /** The `try`/`catch` around fetching: `None` stands for a fetch or an
      extraction that threw, which leaves no partial metadata behind. */
  function PreviewFor(fetched: Option<Metadata>, url: string, host: string): (p: Preview)
    ensures p.domain == host
    ensures p.image != ""
    ensures fetched.None? ==> p.title == host && p.description == url && p.image == PlaceholderImage
    ensures fetched.Some? ==> p == Synthesise(fetched.value, url, host)
  {
    match fetched
    case None => FallbackPreview(url, host)
    case Some(m) => Synthesise(m, url, host)
  }

  /** A failed fetch and a page that yields nothing give the same preview. */
  lemma FallbackIsEmptyExtraction(url: string, host: string)
    ensures PreviewFor(None, url, host) == PreviewFor(Some(NoMetadata), url, host)
  {
  }

  /** Applying the fallbacks to a preview that already went through them
      changes nothing. */
  lemma SynthesiseIdempotent(m: Metadata, url: string, host: string)
    ensures Synthesise(AsMetadata(Synthesise(m, url, host)), url, host) == Synthesise(m, url, host)
  {
  }

  /** Every field of a preview is a non-empty string whatever the extractor
      returned, provided the link and its host name are non-empty. */
  lemma PreviewFieldsNonEmpty(fetched: Option<Metadata>, url: string, host: string)
    requires url != "" && host != ""
    ensures var p := PreviewFor(fetched, url, host);
      p.title != "" && p.description != "" && p.image != "" && p.domain != ""
  {
  }
}

=== FILE: scenarios.dfy ===
/** Concrete requests worked through the model: a link followed by
    punctuation, text without a link, a scheme glued to a word, an
    unreachable host, and a page that yields only a title. */
module Scenarios {
  import opened Wrappers
  import opened CharClasses
  import opened UrlExtractor
  import opened Preview
  import opened Handler

  const Sentence: string := "Check this out: https://example.com/page!"
  const Unreachable: string := "https://unreachable.invalid"
  const NoLinks: string := "no links here"
  const Glued: string := "xhttp://a.com"

  /** No index of `s` starts the first two letters of a scheme at a word
      boundary with room for a link after it. */
  ghost predicate NoSchemeStart(s: string) {
    forall p: nat :: p < |s| ==>
      || p + |Http| >= |s|
      || ToLower(s[p]) != 'h'
      || !BoundaryBefore(s, p)
      || ToLower(s[p + 1]) != 't'
  }

  lemma NoSchemeStartNoMatch(s: string)
    requires NoSchemeStart(s)
    ensures NoMatch(s)
  {
    forall p: nat, j: nat ensures !IsMatch(s, p, j) {
      if p < |s| {
        MatchNeedsSchemeStart(s, p, j);
      }
    }
  }

  lemma SentenceFirstMatch()
    ensures IsFirstMatch(Sentence, Span(16, 40))
  {
    var s := Sentence;
    forall p: nat, j: nat | p < 16 ensures !IsMatch(s, p, j) {
      MatchNeedsSchemeStart(s, p, j);
    }
    assert SchemeAt(s, 16, |Https|) by {
      forall m | 0 <= m < |Https| ensures ToLower(s[16..24][m]) == ToLower(Https[m]) {
        assert s[16..24][m] == s[16 + m];
      }
    }
    assert AllWide(s, 24, 40) && IsNarrow(s[39]) && BoundaryBefore(s, 16);
    assert MatchesWith(s, 16, 40, |Https|);
    assert |s| == 41 && !IsNarrow(s[40]);
  }

  lemma SentenceLink()
    ensures Sentence[16..40] == "https://example.com/page"
  {
    forall m | 0 <= m < 24 ensures Sentence[16..40][m] == "https://example.com/page"[m] {
      assert Sentence[16..40][m] == Sentence[16 + m];
    }
  }

  /** The `!` closing the sentence is not part of the link. */
  lemma TrailingBangDropped()
    ensures ExtractUrl(Sentence) == Some("https://example.com/page")
  {
    SentenceFirstMatch();
    FirstMatchUnique(Sentence, Span(16, 40));
    SentenceLink();
  }

  /** Text without a link is answered with the "no valid URL" error. */
  lemma NoLinksHere(verb: string, hostname: string -> string, fetch: string -> Option<Metadata>)
    requires verb != "OPTIONS"
    ensures ExtractUrl(NoLinks) == None
    ensures Handle(Request(verb, Some(Some(NoLinks))), hostname, fetch)
      == Response(400, ErrorBody(NoValidUrlMessage))
  {
    assert NoSchemeStart(NoLinks);
    NoSchemeStartNoMatch(NoLinks);
  }

  /** `\b` rules out a scheme glued to the end of a word. */
  lemma GluedSchemeIgnored()
    ensures ExtractUrl(Glued) == None
  {
    assert NoSchemeStart(Glued);
    NoSchemeStartNoMatch(Glued);
  }

  lemma UnreachableFirstMatch()
    ensures IsFirstMatch(Unreachable, Span(0, |Unreachable|))
  {
    var s := Unreachable;
    assert SchemeAt(s, 0, |Https|) by {
      forall m | 0 <= m < |Https| ensures ToLower(s[0..8][m]) == ToLower(Https[m]) {
        assert s[0..8][m] == s[m];
      }
    }
    assert AllWide(s, 8, |s|) && IsNarrow(s[|s| - 1]);
    assert MatchesWith(s, 0, |s|, |Https|);
  }

  /** An unreachable page is answered 200 with the fallback record. */
  lemma UnreachableFallsBack(verb: string, hostname: string -> string, fetch: string -> Option<Metadata>)
    requires verb != "OPTIONS"
    requires hostname(Unreachable) == "unreachable.invalid"
    requires fetch(Unreachable).None?
    ensures Handle(Request(verb, Some(Some(Unreachable))), hostname, fetch)
      == Response(200, PreviewBody(Preview("unreachable.invalid", Unreachable, PlaceholderImage, "unreachable.invalid")))
  {
    UnreachableFirstMatch();
    assert Unreachable[0..|Unreachable|] == Unreachable;
    FetchFailureFallsBack(verb, Unreachable, Span(0, |Unreachable|), hostname, fetch);
  }

  /** A page that yields only a title keeps it; the other fields fall back. */
  lemma TitleOnlyPage(verb: string, hostname: string -> string, fetch: string -> Option<Metadata>)
    requires verb != "OPTIONS"
    requires hostname("https://example.com/page") == "example.com"
    requires fetch("https://example.com/page") == Some(Metadata(Some("Example"), None, None))
    ensures Handle(Request(verb, Some(Some(Sentence))), hostname, fetch)
      == Response(200, PreviewBody(Preview("Example", "https://example.com/page", PlaceholderImage, "example.com")))
  {
    SentenceFirstMatch();
    TrailingBangDropped();
    PreviewOfFirstLink(verb, Sentence, Span(16, 40), hostname, fetch);
  }
}

=== FILE: url_extractor.dfy ===
/** The link extractor of index.js: `url.match(urlRegex)[0]` for
      urlRegex = /(\b(https?):\/\/[-A-Z0-9+&@#/%?=~_|!:,.;]*[-A-Z0-9+&@#/%=~_|])/gi
    A match begins at a word boundary with `http://` or `https://` in any
    case, continues with body characters and ends on a narrow character;
    with the `g` flag `match` lists the matches left to right, so element 0
    is the leftmost one, and the greedy `*` makes it the longest there.

    The predicates `IsMatch`, `IsFirstMatch` and `NoMatch` say what the
    expression accepts; `MatchEnd` and `FirstMatch` compute it by scanning,
    and their contracts tie the two together. */
module UrlExtractor {
  import opened Wrappers
  import opened CharClasses

  const Http: string := "http://"
  const Https: string := "https://"

  /** A match occupies `s[start..end]`. */
  datatype Span = Span(start: nat, end: nat)

  /** `\b` in front of the `h` of the scheme: the text starts here, or the
      character before is not a word character. */
  predicate BoundaryBefore(s: string, i: nat)
    requires i <= |s|
  {
    i == 0 || !IsWordChar(s[i - 1])
  }

  /** `(https?):\/\/` matches `s[i..i+n]`. */
  predicate SchemeAt(s: string, i: nat, n: nat) {
    i + n <= |s|
    && ((n == |Http| && EqualsIgnoringCase(s[i..i + n], Http))
        || (n == |Https| && EqualsIgnoringCase(s[i..i + n], Https)))
  }

  /** Every character of `s[a..b]` is a body character. */
  predicate AllWide(s: string, a: nat, b: nat)
    requires a <= b <= |s|
  {
    forall m :: a <= m < b ==> IsWide(s[m])
  }

  /** The expression matches exactly `s[i..j]` with a scheme of length `n`. */
  predicate MatchesWith(s: string, i: nat, j: nat, n: nat) {
    i + n < j <= |s|
    && BoundaryBefore(s, i)
    && SchemeAt(s, i, n)
    && AllWide(s, i + n, j)
    && IsNarrow(s[j - 1])
  }

  /** The expression, tried at index `i`, can match exactly `s[i..j]`. */
  predicate IsMatch(s: string, i: nat, j: nat) {
    MatchesWith(s, i, j, |Http|) || MatchesWith(s, i, j, |Https|)
  }

  /** `sp` is what `match(...)[0]` returns: a match, none starts further
      left, and none starting at the same index is longer. */
  ghost predicate IsFirstMatch(s: string, sp: Span) {
    && IsMatch(s, sp.start, sp.end)
    && (forall p: nat, j: nat :: p < sp.start ==> !IsMatch(s, p, j))
    && (forall j: nat :: sp.end < j ==> !IsMatch(s, sp.start, j))
  }

  /** `match` returns `null`: the expression matches nowhere in `s`. */
  ghost predicate NoMatch(s: string) {
    forall p: nat, j: nat :: !IsMatch(s, p, j)
  }

  /** The length of the scheme and separator at `i`, or 0 when there is none.
      `s?` is greedy but the two schemes exclude each other, since the fifth
      character is `s` in one and `:` in the other. */
  function SchemeLength(s: string, i: nat): (n: nat)
    requires i <= |s|
    ensures n != 0 ==> SchemeAt(s, i, n)
    ensures forall k: nat :: SchemeAt(s, i, k) ==> k == n
  {
    if i + |Https| <= |s| && EqualsIgnoringCase(s[i..i + |Https|], Https) then
      assert s[i..i + |Https|][4] == s[i + 4];
      assert !EqualsIgnoringCase(s[i..i + |Http|], Http) by {
        assert s[i..i + |Http|][4] == s[i + 4];
      }
      |Https|
    else if i + |Http| <= |s| && EqualsIgnoringCase(s[i..i + |Http|], Http) then
      |Http|
    else
      0
  }

  /** The end of the longest run of body characters starting at `k`: where
      `[...]*` stops before backtracking. */
  function RunEnd(s: string, k: nat): (e: nat)
    requires k <= |s|
    ensures k <= e <= |s|
    ensures AllWide(s, k, e)
    ensures e == |s| || !IsWide(s[e])
    decreases |s| - k
  {
    if k == |s| || !IsWide(s[k]) then k else RunEnd(s, k + 1)
  }

  /** Backtracking of `[...]*[narrow]` over the run `s[k..e]`: the largest
      end in `k+1..e` whose last character is narrow, or `k` when the run
      has no narrow character. */
  function TrimEnd(s: string, k: nat, e: nat): (j: nat)
    requires k <= e <= |s|
    ensures k <= j <= e
    ensures j > k ==> IsNarrow(s[j - 1])
    ensures forall m :: j <= m < e ==> !IsNarrow(s[m])
    decreases e - k
  {
    if e == k then k
    else if IsNarrow(s[e - 1]) then e
    else TrimEnd(s, k, e - 1)
  }

  /** The end of the match that starts at `i`, if the expression matches there. */
  function MatchEnd(s: string, i: nat): (r: Option<nat>)
    requires i <= |s|
    ensures r.Some? ==> IsMatch(s, i, r.value)
    ensures r.Some? ==> forall j: nat :: r.value < j ==> !IsMatch(s, i, j)
    ensures r.None? ==> forall j: nat :: !IsMatch(s, i, j)
  {
    if !BoundaryBefore(s, i) then None
    else
      var n := SchemeLength(s, i);
      if n == 0 then None
      else
        var e := RunEnd(s, i + n);
        var j := TrimEnd(s, i + n, e);
        if j == i + n then None else Some(j)
  }

  /** The leftmost match that starts at index `i` or later. */
  function FirstMatchFrom(s: string, i: nat): (r: Option<Span>)
    requires i <= |s|
    ensures r.Some? ==> i <= r.value.start && IsMatch(s, r.value.start, r.value.end)
    ensures r.Some? ==> forall p: nat, j: nat :: i <= p < r.value.start ==> !IsMatch(s, p, j)
    ensures r.Some? ==> forall j: nat :: r.value.end < j ==> !IsMatch(s, r.value.start, j)
    ensures r.None? ==> forall p: nat, j: nat :: i <= p ==> !IsMatch(s, p, j)
    decreases |s| - i
  {
    if i == |s| then None
    else
      match MatchEnd(s, i)
      case Some(j) => Some(Span(i, j))
      case None => FirstMatchFrom(s, i + 1)
  }

  /** `match(urlRegex)`, reduced to the position of its element 0. */
  function FirstMatch(s: string): (r: Option<Span>)
    ensures r.Some? ==> IsFirstMatch(s, r.value)
    ensures r.None? <==> NoMatch(s)
  {
    FirstMatchFrom(s, 0)
  }

  /** A link as the expression accepts it, seen on its own: a scheme in any
      case, body characters, and a narrow last character. */
  predicate IsLinkShape(u: string) {
    (|u| > |Http| && EqualsIgnoringCase(u[..|Http|], Http)
     && AllWide(u, |Http|, |u|) && IsNarrow(u[|u| - 1]))
    || (|u| > |Https| && EqualsIgnoringCase(u[..|Https|], Https)
        && AllWide(u, |Https|, |u|) && IsNarrow(u[|u| - 1]))
  }

  /** `urls[0]`: the text of the first match, or `None` for `urls === null`. */
  function ExtractUrl(s: string): (r: Option<string>)
    ensures r.None? <==> NoMatch(s)
    ensures r.Some? ==> IsLinkShape(r.value)
  {
    match FirstMatch(s)
    case None => None
    case Some(sp) =>
      MatchShape(s, sp.start, sp.end);
      Some(s[sp.start..sp.end])
  }

  /** The text of a match, cut out of its input, has the shape of a link. */
  lemma MatchShape(s: string, i: nat, j: nat)
    requires IsMatch(s, i, j)
    ensures IsLinkShape(s[i..j])
  {
    var u := s[i..j];
    var n := if MatchesWith(s, i, j, |Http|) then |Http| else |Https|;
    assert MatchesWith(s, i, j, n);
    assert u[..n] == s[i..i + n];
    assert forall m :: n <= m < |u| ==> u[m] == s[i + m];
    assert u[|u| - 1] == s[j - 1];
  }

  /** Punctuation at the end of a link belongs to the surrounding prose. */
  lemma NoTrailingPunctuation(s: string)
    requires ExtractUrl(s).Some?
    ensures ExtractUrl(s).value[|ExtractUrl(s).value| - 1] !in ".,;:!?"
  {
    var u := ExtractUrl(s).value;
    assert IsNarrow(u[|u| - 1]);
    TrailingPunctuation(u[|u| - 1]);
  }

  /** A match needs, at a word boundary, at least eight characters whose
      first two fold to `h` and `t`; any other index starts none. */
  lemma MatchNeedsSchemeStart(s: string, p: nat, j: nat)
    requires p < |s|
    requires || p + |Http| >= |s|
             || ToLower(s[p]) != 'h'
             || !BoundaryBefore(s, p)
             || ToLower(s[p + 1]) != 't'
    ensures !IsMatch(s, p, j)
  {
    if p + |Http| <= |s| {
      assert s[p..p + |Http|][0] == s[p] && s[p..p + |Http|][1] == s[p + 1];
    }
    if p + |Https| <= |s| {
      assert s[p..p + |Https|][0] == s[p] && s[p..p + |Https|][1] == s[p + 1];
    }
  }

  /** The characterisation is exact: a span meeting `IsFirstMatch` is the
      one `FirstMatch` finds. */
  lemma FirstMatchUnique(s: string, sp: Span)
    requires IsFirstMatch(s, sp)
    ensures FirstMatch(s) == Some(sp)
  {
    var q := FirstMatch(s).value;
    LeftmostLongestAgree(s, sp, q);
  }

  /** Two spans that are both leftmost and longest matches coincide. */
  lemma LeftmostLongestAgree(s: string, a: Span, b: Span)
    requires IsFirstMatch(s, a) && IsFirstMatch(s, b)
    ensures a == b
  {
    assert a.start == b.start by {
      assert !(a.start < b.start) && !(b.start < a.start);
    }
    assert !(a.end < b.end) && !(b.end < a.end);
  }

  /** The extracted link is the text of the first match of the input. */
  lemma ExtractUrlIsFirstMatch(s: string)
    requires ExtractUrl(s).Some?
    ensures FirstMatch(s).Some?
    ensures IsFirstMatch(s, FirstMatch(s).value)
    ensures ExtractUrl(s).value == s[FirstMatch(s).value.start..FirstMatch(s).value.end]
    ensures BoundaryBefore(s, FirstMatch(s).value.start)
  {
  }

  /** Every character of a match is a body character, scheme included. */
  lemma MatchIsWide(s: string, i: nat, j: nat)
    requires IsMatch(s, i, j)
    ensures AllWide(s, i, j)
  {
    var n := if MatchesWith(s, i, j, |Http|) then |Http| else |Https|;
    assert MatchesWith(s, i, j, n);
    forall m | i <= m < i + n
      ensures IsWide(s[m])
    {
      assert s[i..i + n][m - i] == s[m];
      if n == |Http| {
        assert ToLower(s[m]) == Http[m - i];
      } else {
        assert ToLower(s[m]) == Https[m - i];
      }
      SchemeCharIsWide(s[m]);
    }
  }

  /** Appending text after a non-body character creates no match that
      starts before it and changes none. */
  lemma MatchUnaffectedByAppend(s: string, t: string, p: nat, j: nat)
    requires |s| > 0 && !IsWide(s[|s| - 1])
    requires p < |s|
    ensures IsMatch(s + t, p, j) <==> IsMatch(s, p, j)
  {
    var st := s + t;
    if IsMatch(st, p, j) {
      MatchIsWide(st, p, j);
      assert st[|s| - 1] == s[|s| - 1];
      assert j < |s|;
      var n := if MatchesWith(st, p, j, |Http|) then |Http| else |Https|;
      assert st[p..p + n] == s[p..p + n];
      assert forall m :: p <= m < j ==> st[m] == s[m];
      assert MatchesWith(s, p, j, n);
    }
    if IsMatch(s, p, j) {
      var n := if MatchesWith(s, p, j, |Http|) then |Http| else |Https|;
      assert st[p..p + n] == s[p..p + n];
      assert forall m :: p <= m < j ==> st[m] == s[m];
      assert MatchesWith(st, p, j, n);
    }
  }

  /** Only the leftmost link is used: once the input holds a match and then
      a separator (any non-body character, such as a space), whatever
      follows, further links included, leaves the result unchanged. */
  lemma LaterTextIgnored(s: string, t: string)
    requires FirstMatch(s).Some?
    requires |s| > 0 && !IsWide(s[|s| - 1])
    ensures FirstMatch(s + t) == FirstMatch(s)
    ensures ExtractUrl(s + t) == ExtractUrl(s)
  {
    var sp := FirstMatch(s).value;
    var st := s + t;
    assert sp.start < |s|;
    MatchUnaffectedByAppend(s, t, sp.start, sp.end);
    forall p: nat, j: nat | p < sp.start
      ensures !IsMatch(st, p, j)
    {
      MatchUnaffectedByAppend(s, t, p, j);
    }
    forall j: nat | sp.end < j
      ensures !IsMatch(st, sp.start, j)
    {
      MatchUnaffectedByAppend(s, t, sp.start, j);
    }
    FirstMatchUnique(st, sp);
    assert st[sp.start..sp.end] == s[sp.start..sp.end];
  }
}

=== FILE: wrappers.dfy ===
/** The optional-value wrapper used throughout the model. */
module Wrappers {

  /** `None` stands for a JavaScript value that is absent (`undefined`,
      `null`, or an exception in place of a value). */
  datatype Option<+T> = None | Some(value: T)
}
